=== FILE: README.md ===
# Bill splitter: allocation engine and bill store

This project models the core of a restaurant bill splitter (`script.js`). A bill has
items, people and an assignment of each item to the people who share it. It also has a
tax (a dollar amount or a percentage of the subtotal), a tip percentage and a rounding
mode: none, round the whole bill up, or round each person up.

- The **engine** (script.js:144-289) computes the subtotal, tax, tip, effective tip
  percentage and grand total. For each person it computes a breakdown (subtotal share,
  tax share, tip share, total) and an item list with split costs.
- The **store** (script.js:35-142) holds the bill and changes it in place. It adds,
  edits and deletes items, adds and deletes people, and toggles assignments.

Modules:

- `Money` (money.dfy): the arithmetic the engine uses on amounts. Money is an exact
  `real`. It covers `Math.ceil`, a fraction of an amount, a ratio, an equal split and
  percentages.
- `BillData` (bill_data.dfy): the entities, and the well-formedness conditions the store
  keeps.
- `Engine` (engine.dfy): one function per query. The per-person `forEach` accumulation
  is a method with a loop. `getPersonBaseTotal`/`getPersonTotal` are methods that call
  it. Each method is proved equal to the function that specifies it.
- `EngineProofs` (engine_proofs.dfy): the accounting identities.
  - The people's totals add up to the grand total in every rounding mode (in none and
    total modes on a well-formed bill, defined below).
  - Rounding the whole bill only adds, and by less than one unit. Rounding each person
    up only adds, by less than one unit per person, on a well-formed bill.
  - On a positive subtotal, the displayed tip percentage is never below the one entered.
  - A person who shares nothing owes nothing.
  - A person's item list is exactly the items they share, and it adds up to their
    subtotal share.
- `Store` (store.dfy): the list and dictionary updates as functions on values, and the
  class `BillStore`. Its methods apply those updates and keep the store invariant: ids
  are unique, every assignment key is an item, every assignee is a person, and no list
  repeats a person. Lemmas tie the updates to the engine.
  - Deleting an item takes its price off the subtotal.
  - Editing an item's price changes the subtotal by the difference.
  - A deleted or newly added person owes nothing.
  - Toggling an assignment twice leaves every breakdown as it was.
- `Scenarios` (scenarios.dfy): worked bills.
  - 20.00 split two ways with 10% tax and 15% tip gives 25.00, 12.50 each.
  - 21.00 rounded per person gives 14.00 each and a 4.90 tip.
  - An item nobody shares is in the total but paid by nobody.
  - With that unshared item, rounding each person up gives 26.00 against 37.50
    unrounded: rounding then lowers the total.
  - A negative price pushes a person's proportion outside [0, 1].

Facts about the code that the contracts reflect:

- The tax and rounding modes carry the code's values: `'dollar'`/`'percentage'` and
  `'none'`/`'total'`/`'individual'`.
- A bill is **well-formed** when four conditions hold:
  - people have distinct ids;
  - every item is assigned to distinct people who are on the bill;
  - inputs are non-negative;
  - a tax is charged only when the subtotal is positive.
- The people's totals add up to the grand total unconditionally only in individual
  mode. In none and total modes this needs a well-formed bill; otherwise the code's
  proportions leave part of the bill to nobody.
- In individual mode the grand total is the sum of the people's rounded totals. On a
  bill that is not well-formed it can fall below the unrounded total, and differ from
  subtotal + tax + displayed tip (scenario `IndividualRoundingDropsUnsharedItem`).
- The effective tip percentage equals the entered one whenever rounding is off and the
  subtotal is not zero. The converse does not hold: a rounding mode that adds nothing
  also leaves it equal. So the model proves only that direction, plus "never below" for
  a positive subtotal.

## Model

| member | source | states |
|---|---|---|
| Money.Ceil | script.js:169 | `Math.ceil`: the result is an integer at or above `x` and less than one above it |
| Money.RoundUpGap | script.js:245-247 | what rounding up adds lies in [0, 1) and is 0 for a whole amount |
| Money.Portion | script.js:222-223 | a fraction in [0, 1] of a non-negative amount lies between 0 and the amount |
| Money.Ratio | script.js:220 | the proportion is 0 when the whole is not positive; otherwise that fraction of the whole gives back the part, and it lies in [0, 1] when the part lies within the whole |
| Money.Split | script.js:215 | an equal share of an amount split `n` ways: `n` shares make up the amount again, and a share of a non-negative amount lies within it |
| Money.PercentOf | script.js:154 | a percentage of an amount is non-negative for non-negative inputs and 0 for a zero amount |
| Money.AsPercentOf | script.js:186-187 | expressing an amount as a percentage of zero gives 0 |
| Money.PercentRoundTrip | script.js:184-188 | reading a percentage of a non-zero amount back as a percentage gives the same percentage; reading back anything larger gives at least as much |
| Engine.Subtotal | script.js:144-146 | the sum of all item prices, assigned or not; non-negative when prices are |
| Engine.TaxAmount | script.js:148-156 | the dollar value, or the percentage of the subtotal (0 on a zero subtotal); non-negative for non-negative inputs |
| Engine.BaseTip | script.js:158-162 | the tip percentage of the subtotal; 0 on a zero subtotal |
| Engine.BaseTotal | script.js:190-192 | subtotal + tax + base tip, never below the subtotal for non-negative inputs |
| Engine.Contribution | script.js:213-216 | a person's part of one item: nothing unless they share it, and within its price when the price is non-negative |
| Engine.ShareOf | script.js:210-217 | for non-negative prices, a person's subtotal share lies between 0 and the subtotal |
| Engine.Proportion | script.js:219-220 | the person's proportion of the subtotal is 0 when the subtotal is not positive, and lies in [0, 1] for non-negative prices |
| Engine.PersonTax | script.js:222 | for non-negative inputs, a person's part of the tax lies between 0 and the tax |
| Engine.PersonBaseTip | script.js:223 | for non-negative inputs, a person's part of the base tip lies between 0 and the base tip |
| Engine.Unrounded | script.js:209-226 | `getPersonBaseTotal`: 0 for a person with no share; for non-negative inputs, between their share and the bill's base total |
| Engine.TotalRoundingShare | script.js:256-263 | in total mode, a person's part of the rounding is 0 when the base total is not positive, and in [0, 1) for non-negative inputs |
| Engine.PersonBreakdown | script.js:228-279 | the breakdown's subtotal and tax are the unrounded shares and its total is subtotal + tax + tip; none mode gives the unrounded total; individual mode gives a whole total less than one above it, with the gap added to the tip |
| Engine.RoundingExtra | script.js:173-177 | what rounding each person up adds in all is at least 0 and under one unit per person |
| Engine.TipAmount | script.js:164-182 | the base tip, plus the bill's rounding gap in total mode or the people's rounding gaps in individual mode; never below the base tip |
| Engine.Total | script.js:194-207 | the base total in none mode; the base total rounded up (whole, less than one above) in total mode; the sum of the people's rounded-up totals (whole) in individual mode |
| Engine.RoundedSplits | script.js:199-203 | the people's rounded totals add up to a whole number: their unrounded totals plus the rounding extra |
| Engine.EffectiveTipPercentage | script.js:184-188 | 0 on a zero subtotal; exactly the entered tip percentage when rounding is off |
| Engine.PersonItems | script.js:281-289 | every listed entry is an item of the bill that the person shares, carrying its equal split cost |
| Engine.AccumulateShare | script.js:210-217 | the `forEach` loop computes the person's subtotal share |
| Engine.PersonShares | script.js:229-242 | the loop's result and the proportional tax and tip parts equal the specifying functions |
| Engine.PersonBaseTotal | script.js:209-226 | `getPersonBaseTotal` returns the person's unrounded total, between 0 and the base total for non-negative inputs |
| Engine.PersonTotal | script.js:228-279 | `getPersonTotal` returns the person's breakdown, whose total is subtotal + tax + tip |
| EngineProofs.SpreadIsPrice | script.js:212-216 | an item shared by distinct people on the bill, who have distinct ids, is paid in full by them |
| EngineProofs.SharesSumToSubtotal | script.js:144-146 | on a bill whose people have distinct ids and whose every item is shared by distinct people on the bill, the people's subtotal shares add up to the subtotal |
| EngineProofs.ProportionsSumToOne | script.js:219-220 | on a bill whose people have distinct ids and whose every item is shared by distinct people on the bill, with a positive subtotal, the people's proportions add up to 1 |
| EngineProofs.TaxSharesSumToTax | script.js:222 | on a bill whose people have distinct ids and whose every item is shared by distinct people on the bill, the people's tax parts add up to the tax, provided the subtotal is positive or the tax is zero |
| EngineProofs.TipSharesSumToTip | script.js:223 | on a bill whose people have distinct ids and whose every item is shared by distinct people on the bill, with a non-negative subtotal, the people's base-tip parts add up to the base tip |
| EngineProofs.UnroundedSumIsBaseTotal | script.js:190-192 | on a well-formed bill, the people's unrounded totals add up to the bill's base total |
| EngineProofs.IndividualConservation | script.js:199-203 | individual mode: the people's displayed totals add up to the grand total, a whole number, for every bill |
| EngineProofs.NoneConservation | script.js:204-206 | none mode, on a well-formed bill: the people's totals add up to the grand total, which is subtotal + tax + tip |
| EngineProofs.RoundingSharesSumToGap | script.js:256-263 | on a well-formed bill, the people's total-mode parts of the rounding add up to what rounding the bill adds |
| EngineProofs.TotalModeConservation | script.js:197-198 | total mode, on a well-formed bill: the people's adjusted totals add up to the rounded-up bill, a whole number |
| EngineProofs.Conservation | script.js:194-207 | in every rounding mode the people's displayed totals add up to the displayed grand total (in none and total modes, for a well-formed bill) |
| EngineProofs.TotalIsSubtotalTaxTip | script.js:164-207 | the grand total is subtotal + tax + displayed tip, for every bill in none and total modes and for a well-formed bill in individual mode |
| EngineProofs.RoundingOnlyAdds | script.js:194-207 | rounding never lowers the grand total (in individual mode, for a well-formed bill); total mode adds less than one unit, individual mode less than one per person |
| EngineProofs.EffectiveTipAtLeastEntered | script.js:184-188 | on a positive subtotal the displayed tip percentage is never below the entered one |
| EngineProofs.UnassignedPersonOwesNothing | script.js:228-279 | a person who shares no item gets an all-zero breakdown in every mode |
| EngineProofs.TaxShareIgnoresRounding | script.js:241 | a person's tax part does not depend on the rounding mode |
| EngineProofs.ModesAgreeOnSubtotalAndTax | script.js:244-279 | rounding changes only the tip: subtotal and tax parts are equal in every mode |
| EngineProofs.SharedPositionsAreShared | script.js:282-285 | the positions kept by the filter are exactly the shared items' indices, in increasing order |
| EngineProofs.PersonItemsAreSharedItems | script.js:281-289 | the item list is exactly the shared items in bill order, each with its split cost |
| EngineProofs.SplitCostsSumToShare | script.js:287 | the split costs on a person's list add up to their subtotal share |
| Store.Without | script.js:122 | filtering keeps exactly the other ids, and leaves a list without the id unchanged |
| Store.WithoutKeepsDistinct | script.js:134 | filtering never introduces a repeat |
| Store.WithoutRemovesOne | script.js:134 | removing an id that occurs once shortens the list by one |
| Store.Toggled | script.js:128-141 | the person's membership flips and every other id's membership is unchanged |
| Store.ToggledKeepsDistinct | script.js:128-141 | toggling never creates a duplicate |
| Store.ToggleTwice | script.js:128-141 | toggling twice restores the same sharers and their count, and the list itself when the person was absent |
| Store.RemoveItem | script.js:98 | the kept items are exactly those with another id; no item keeps the deleted id |
| Store.RemovePerson | script.js:119 | the kept people are exactly those with another id |
| Store.EditItem | script.js:80-84 | ids and length are unchanged; only the edited item gets the new name and price |
| Store.StripPerson | script.js:120-123 | the same keys, each list without the deleted person |
| Store.StripEachKey | script.js:121-123 | the key-by-key loop produces every list without the deleted person |
| Store.RemoveItemKeepsDistinct | script.js:98 | deleting keeps item ids distinct |
| Store.RemovePersonKeepsDistinct | script.js:119 | deleting keeps person ids distinct |
| Store.RemovedItemSubtotal | script.js:97-101 | deleting an item takes exactly its price off the subtotal |
| Store.EditedItemSubtotal | script.js:78-84 | editing an item changes the subtotal by exactly the change of its price |
| Store.DeleteItemKeepsInvariant | script.js:97-101 | deleting an item and its entry keeps the store invariant |
| Store.DeletePersonKeepsInvariant | script.js:118-124 | deleting a person and stripping their id keeps the store invariant |
| Store.InvariantIsConsistent | script.js:127-141 | the store invariant gives the consistency the engine's identities assume |
| Store.AbsentPersonOwesNothing | script.js:107-115 | a person not on the bill (such as one just added) owes nothing |
| Store.DeletedPersonOwesNothing | script.js:118-124 | after deletion the person owes nothing |
| Store.SameSharersSameShare | script.js:212-216 | a person's share depends on each item's sharers only through who they are and how many |
| Store.ToggleTwiceSameBreakdown | script.js:127-141 | toggling an assignment twice gives every person the same breakdown as before |
| Store.BillStore.constructor | script.js:4-9 | empty lists, a zero dollar tax and tip, no rounding; the invariant holds |
| Store.BillStore.ResetAll | script.js:35-41 | back to the initial state |
| Store.BillStore.AddItem | script.js:59-70 | appends the item unless name or price is blank; the subtotal grows by its price; the invariant is kept |
| Store.BillStore.SaveEditItem | script.js:78-89 | applies the edit unless a field is blank; the subtotal changes by the price difference |
| Store.BillStore.DeleteItem | script.js:97-101 | removes the item and its assignment entry; the subtotal drops by its price |
| Store.BillStore.AddPerson | script.js:107-116 | appends the person unless the name is blank; the new person owes nothing |
| Store.BillStore.DeletePerson | script.js:118-125 | removes the person and strips them from every list; they then owe nothing |
| Store.BillStore.ToggleAssignment | script.js:127-142 | flips only this person's membership of this item's list; everything else is unchanged |
| Scenarios.EvenSplitWithoutRounding | script.js:144-207 | 20.00 split two ways, 10% tax, 15% tip: total 25.00, 12.50 each |
| Scenarios.EvenSplitRoundedIndividually | script.js:244-255 | 21.00 split two ways, each rounded: 13.125 becomes 14.00, total 28.00, tip 4.90 |
| Scenarios.UnsharedItemIsPaidByNobody | script.js:212-217 | an unshared item counts in the total (37.50) but the people pay only 25.00 |
| Scenarios.IndividualRoundingDropsUnsharedItem | script.js:199-203 | with that unshared item, individual rounding gives 26.00, below the unrounded 37.50, and not subtotal + tax + tip (38.50) |
| Scenarios.NegativePriceBreaksProportionBounds | script.js:219-220 | with a 10.00 item and a -5.00 item on a 5.00 subtotal, the proportions are 2 and -1, outside [0, 1] |

## Left out

- Rendering is not modelled: JSX, card collapsing, the chart toggle, the selected
  person and the edit buffers (`startEditItem`, `cancelEditItem`, and the
  `cancelEditItem` call in `deleteItem`). They do not affect the bill.
- `exportImages` is not modelled. It is DOM and canvas work, timers and file download.
- Id generation by `Date.now()` is left out. Ids are caller-supplied naturals.
  `AddItem` and `AddPerson` require a fresh id.
- `parseFloat(...) || 0` and `.trim()` are left out.
  - Names are passed already trimmed, and the blank guard is `name != ""`.
  - A price is `Option<real>`, where `None` is a blank field.
  - A non-numeric field giving `NaN` is not modelled.
- A blank tax or tip field is 0.
- Floating point and `toFixed` display are left out. Amounts are exact reals, so
  float rounding error is not modelled.
- The inline handlers that set the tax, the tip and the rounding mode from form
  fields are not modelled. They assign one field of the store.
- React state updates are batched and asynchronous. The model applies each
  operation's updates together and in place.
- Object keys are strings in the source and `nat` in the model.
- Negative prices, tax and tip: the form's number fields have no minimum, and the code
  does not reject a negative value. The bounds on a person's share, proportion, tax
  part, tip part, unrounded total and rounding part hold only for non-negative inputs,
  and so do the well-formed-bill identities. With a negative price a person's
  proportion can exceed 1 (scenario `NegativePriceBreaksProportionBounds`).
- Store.BillStore.ToggleAssignment: requires the item and the person to exist. The
  form only offers existing pairs, and the invariant depends on it.
- EngineProofs.Conservation: proved in none and total modes only for a well-formed
  bill, as defined above. Without these conditions the source does not keep the identity.

=== FILE: bill_data.dfy ===
/**
 * The entities of the bill splitter: items, people, the assignment of items to the
 * people who share them, the tax and tip settings and the rounding mode, and the
 * well-formedness conditions the store maintains over them.
 */
module BillData {

  datatype Option<T> = None | Some(value: T)

  /** A line of the bill. */
  datatype Item = Item(id: nat, name: string, price: real)

  datatype Person = Person(id: nat, name: string)

  /** The tax input is either an amount (`'dollar'`) or a percentage of the subtotal. */
  datatype TaxKind = Dollar | Percentage

  datatype Tax = Tax(kind: TaxKind, value: real)

  /** `'none'`, `'total'` (round the whole bill up) or `'individual'` (round each person up). */
  datatype Rounding = RoundNone | RoundTotal | RoundIndividual

  /** What the engine reads: the store's state at one moment. */
  datatype Bill = Bill(
    items: seq<Item>,
    people: seq<Person>,
    assignments: map<nat, seq<nat>>,
    tax: Tax,
    tipPercent: real,
    rounding: Rounding)

  /** One person's share of the bill. */
  datatype Breakdown = Breakdown(subtotal: real, tax: real, tip: real, total: real)

  /** An item on one person's check, with that person's part of its price. */
  datatype PersonItem = PersonItem(item: Item, splitCost: real)

  /** The people sharing an item; an item without an entry is shared by nobody. */
  function Assignees(assignments: map<nat, seq<nat>>, itemId: nat): seq<nat> {
    if itemId in assignments then assignments[itemId] else []
  }

  function ItemIds(items: seq<Item>): set<nat> {
    set it | it in items :: it.id
  }

  function PersonIds(people: seq<Person>): set<nat> {
    set p | p in people :: p.id
  }

  predicate NoDuplicates(ids: seq<nat>) {
    forall i, j :: 0 <= i < j < |ids| ==> ids[i] != ids[j]
  }

  predicate DistinctItemIds(items: seq<Item>) {
    forall i, j :: 0 <= i < j < |items| ==> items[i].id != items[j].id
  }

  predicate DistinctPersonIds(people: seq<Person>) {
    forall i, j :: 0 <= i < j < |people| ==> people[i].id != people[j].id
  }

  predicate PricesNonNegative(items: seq<Item>) {
    forall it :: it in items ==> it.price >= 0.0
  }

  /**
   * No negative price, tax or tip. The form does not reject negative values; the
   * engine's bounds and the accounting identities are stated for inputs like these.
   */
  predicate NonNegativeInputs(b: Bill) {
    PricesNonNegative(b.items) && b.tax.value >= 0.0 && b.tipPercent >= 0.0
  }

  /** Every item of the bill is shared by distinct people who are all on the bill, and people have distinct ids. */
  predicate Consistent(b: Bill) {
    && DistinctPersonIds(b.people)
    && forall it :: it in b.items ==>
         && NoDuplicates(Assignees(b.assignments, it.id))
         && forall q :: q in Assignees(b.assignments, it.id) ==> q in PersonIds(b.people)
  }

  /** Nobody is left out of paying for any item. */
  predicate EveryItemAssigned(b: Bill) {
    forall it :: it in b.items ==> |Assignees(b.assignments, it.id)| > 0
  }

  /**
   * What the store keeps true: ids are unique, every assignment key names an item,
   * every assignee is a person, and no assignment list repeats a person.
   */
  predicate StoreInvariant(items: seq<Item>, people: seq<Person>, assignments: map<nat, seq<nat>>) {
    && DistinctItemIds(items)
    && DistinctPersonIds(people)
    && forall k :: k in assignments ==>
         && k in ItemIds(items)
         && NoDuplicates(assignments[k])
         && forall q :: q in assignments[k] ==> q in PersonIds(people)
  }
}

=== FILE: engine.dfy ===
/**
 * The allocation engine: queries over one snapshot of the bill (script.js:144-289).
 * Bill-level amounts, each person's share and the two rounding reconciliations are
 * functions; the per-person `forEach` accumulation is a method with a loop, proved
 * against the function that specifies it.
 */
module Engine {
  import opened Money
  import opened BillData

  // ---------------------------------------------------------------------------
  // Bill-level amounts
  // ---------------------------------------------------------------------------

  /** `getSubtotal`: the prices of all items, assigned or not, added left to right. */
  function Subtotal(items: seq<Item>): (s: real)
    ensures PricesNonNegative(items) ==> s >= 0.0
  {
    if items == [] then 0.0
    else Subtotal(items[..|items| - 1]) + items[|items| - 1].price
  }

  /** `getTaxAmount`: a fixed amount, or a percentage of the subtotal. */
  function TaxAmount(b: Bill): (t: real)
    ensures NonNegativeInputs(b) ==> t >= 0.0
    ensures b.tax.kind == Percentage && Subtotal(b.items) == 0.0 ==> t == 0.0
  {
    if b.tax.kind == Dollar then b.tax.value
    else PercentOf(Subtotal(b.items), b.tax.value)
  }

  /** `getBaseTipAmount`: the tip percentage of the subtotal, before any rounding. */
  function BaseTip(b: Bill): (t: real)
    ensures NonNegativeInputs(b) ==> t >= 0.0
    ensures Subtotal(b.items) == 0.0 ==> t == 0.0
  {
    PercentOf(Subtotal(b.items), b.tipPercent)
  }

  /** `getBaseTotal`: the bill before rounding; tax and tip only add to the subtotal. */
  function BaseTotal(b: Bill): (t: real)
    ensures NonNegativeInputs(b) ==> Subtotal(b.items) <= t
  {
    Subtotal(b.items) + TaxAmount(b) + BaseTip(b)
  }

  // ---------------------------------------------------------------------------
  // One person's share
  // ---------------------------------------------------------------------------

  /** What one item adds to a person's subtotal: an equal part of its price if they share it. */
  function Contribution(item: Item, assignments: map<nat, seq<nat>>, personId: nat): (c: real)
    ensures personId !in Assignees(assignments, item.id) ==> c == 0.0
    ensures item.price >= 0.0 ==> 0.0 <= c <= item.price
  {
    var sharers := Assignees(assignments, item.id);
    if personId in sharers then
      Split(item.price, |sharers|)
    else 0.0
  }

  /** A person's subtotal share: their parts of the items, added in item order. */
  function ShareOf(items: seq<Item>, assignments: map<nat, seq<nat>>, personId: nat): (s: real)
    ensures PricesNonNegative(items) ==> 0.0 <= s <= Subtotal(items)
  {
    if items == [] then 0.0
    else ShareOf(items[..|items| - 1], assignments, personId)
         + Contribution(items[|items| - 1], assignments, personId)
  }

  /** The person's fraction of the subtotal, 0 when the subtotal is not positive. */
  function Proportion(b: Bill, personId: nat): (r: real)
    ensures Subtotal(b.items) <= 0.0 ==> r == 0.0
    ensures PricesNonNegative(b.items) ==> 0.0 <= r <= 1.0
  {
    Ratio(ShareOf(b.items, b.assignments, personId), Subtotal(b.items))
  }

  /** The person's part of the tax, by their fraction of the subtotal. */
  function PersonTax(b: Bill, personId: nat): (t: real)
    ensures NonNegativeInputs(b) ==> 0.0 <= t <= TaxAmount(b)
  {
    Portion(TaxAmount(b), Proportion(b, personId))
  }

  /** The person's part of the base tip, by their fraction of the subtotal. */
  function PersonBaseTip(b: Bill, personId: nat): (t: real)
    ensures NonNegativeInputs(b) ==> 0.0 <= t <= BaseTip(b)
  {
    Portion(BaseTip(b), Proportion(b, personId))
  }

  /** `getPersonBaseTotal`: the person's share of subtotal, tax and tip before rounding. */
  function Unrounded(b: Bill, personId: nat): (t: real)
    ensures ShareOf(b.items, b.assignments, personId) == 0.0 ==> t == 0.0
    ensures NonNegativeInputs(b) ==> ShareOf(b.items, b.assignments, personId) <= t <= BaseTotal(b)
  {
    ShareOf(b.items, b.assignments, personId) + PersonTax(b, personId) + PersonBaseTip(b, personId)
  }

  /**
   * In `'total'` mode, the person's part of what rounding the bill up adds, in proportion
   * to their unrounded total: at least 0 and under one unit.
   */
  function TotalRoundingShare(b: Bill, personId: nat): (a: real)
    ensures BaseTotal(b) <= 0.0 ==> a == 0.0
    ensures NonNegativeInputs(b) ==> 0.0 <= a < 1.0
  {
    Portion(RoundUpGap(BaseTotal(b)), Ratio(Unrounded(b, personId), BaseTotal(b)))
  }

  /**
   * `getPersonTotal`: the person's breakdown. Rounding never changes the subtotal or tax
   * part; whatever it adds goes to the tip, and it adds less than one unit.
   */
  function PersonBreakdown(b: Bill, personId: nat): (r: Breakdown)
    ensures r.subtotal == ShareOf(b.items, b.assignments, personId)
    ensures r.tax == PersonTax(b, personId)
    ensures r.total == r.subtotal + r.tax + r.tip
    ensures b.rounding == RoundNone ==> r.total == Unrounded(b, personId)
    ensures b.rounding == RoundIndividual ==>
              IsWhole(r.total) && Unrounded(b, personId) <= r.total < Unrounded(b, personId) + 1.0
    ensures b.rounding == RoundIndividual || NonNegativeInputs(b) ==>
              PersonBaseTip(b, personId) <= r.tip < PersonBaseTip(b, personId) + 1.0
  {
    var personSubtotal := ShareOf(b.items, b.assignments, personId);
    var personTax := PersonTax(b, personId);
    var personTip := PersonBaseTip(b, personId);
    var personBaseTotal := personSubtotal + personTax + personTip;
    match b.rounding
    case RoundIndividual =>
      CeilIsWhole(personBaseTotal);
      Breakdown(personSubtotal, personTax, personTip + RoundUpGap(personBaseTotal), Ceil(personBaseTotal) as real)
    case RoundTotal =>
      var adjustment := TotalRoundingShare(b, personId);
      Breakdown(personSubtotal, personTax, personTip + adjustment, personBaseTotal + adjustment)
    case RoundNone =>
      Breakdown(personSubtotal, personTax, personTip, personBaseTotal)
  }

  // ---------------------------------------------------------------------------
  // Sums over the people of the bill
  // ---------------------------------------------------------------------------

  /** The sum of `f` over the people's ids, added in list order (the people `reduce` of script.js:173-177 and 200-203). */
  function SumOver(people: seq<Person>, f: nat -> real): real
  {
    if people == [] then 0.0
    else SumOver(people[..|people| - 1], f) + f(people[|people| - 1].id)
  }

  lemma {:induction false} SumOverBounds(people: seq<Person>, f: nat -> real)
    requires forall id :: 0.0 <= f(id) < 1.0
    ensures 0.0 <= SumOver(people, f) <= |people| as real
    ensures |people| > 0 ==> SumOver(people, f) < |people| as real
  {
    if people != [] {
      SumOverBounds(people[..|people| - 1], f);
    }
  }

  lemma {:induction false} SumOfWholes(people: seq<Person>, f: nat -> real)
    requires forall id :: IsWhole(f(id))
    ensures IsWhole(SumOver(people, f))
  {
    if people != [] {
      SumOfWholes(people[..|people| - 1], f);
      WholeSum(SumOver(people[..|people| - 1], f), f(people[|people| - 1].id));
    }
  }

  lemma {:induction false} SumOverAdd(people: seq<Person>, f: nat -> real, g: nat -> real, h: nat -> real)
    requires forall id :: h(id) == f(id) + g(id)
    ensures SumOver(people, h) == SumOver(people, f) + SumOver(people, g)
  {
    if people != [] {
      SumOverAdd(people[..|people| - 1], f, g, h);
    }
  }

  lemma {:induction false} SumOverSame(people: seq<Person>, f: nat -> real, g: nat -> real)
    requires forall id :: f(id) == g(id)
    ensures SumOver(people, f) == SumOver(people, g)
  {
    if people != [] {
      SumOverSame(people[..|people| - 1], f, g);
    }
  }

  lemma {:induction false} SumOverZero(people: seq<Person>, f: nat -> real)
    requires forall id :: f(id) == 0.0
    ensures SumOver(people, f) == 0.0
  {
    if people != [] {
      SumOverZero(people[..|people| - 1], f);
    }
  }

  lemma {:induction false} SumOverScale(people: seq<Person>, f: nat -> real, g: nat -> real, c: real)
    requires forall id :: g(id) == Portion(c, f(id))
    ensures SumOver(people, g) == Portion(c, SumOver(people, f))
  {
    if people != [] {
      var pre, last := people[..|people| - 1], people[|people| - 1].id;
      SumOverScale(pre, f, g, c);
      calc {
        SumOver(people, g);
        SumOver(pre, f) * c + f(last) * c;
        (SumOver(pre, f) + f(last)) * c;
      }
    }
  }

  /** If each part is `total` scaled by a ratio and the parts add up to a non-zero `total`, the ratios add up to 1. */
  lemma RatiosSumToOne(people: seq<Person>, ratio: nat -> real, part: nat -> real, total: real)
    requires forall id :: part(id) == Portion(total, ratio(id))
    requires total != 0.0 && SumOver(people, part) == total
    ensures SumOver(people, ratio) == 1.0
  {
    SumOverScale(people, ratio, part, total);
    WholeFraction(total, SumOver(people, ratio));
  }

  /** If each part is `amount` scaled by a ratio and the ratios add up to 1 (or there is nothing to share), the parts add up to `amount`. */
  lemma PartsSumToWhole(people: seq<Person>, ratio: nat -> real, part: nat -> real, amount: real)
    requires forall id :: part(id) == Portion(amount, ratio(id))
    requires SumOver(people, ratio) == 1.0 || amount == 0.0
    ensures SumOver(people, part) == amount
  {
    SumOverScale(people, ratio, part, amount);
  }

  /** Each person's unrounded total, as a function of their id. */
  function UnroundedFn(b: Bill): nat -> real {
    (personId: nat) => Unrounded(b, personId)
  }

  /** Each person's unrounded total rounded up, as a function of their id. */
  function RoundedFn(b: Bill): nat -> real {
    (personId: nat) => Ceil(Unrounded(b, personId)) as real
  }

  /** What rounding a person up adds, as a function of their id. */
  function RoundingGapFn(b: Bill): nat -> real {
    (personId: nat) => RoundUpGap(Unrounded(b, personId))
  }

  /** The sum of the people's unrounded totals. */
  function UnroundedSum(b: Bill): real {
    SumOver(b.people, UnroundedFn(b))
  }

  /** What rounding every person up adds in all: at least 0 and under one unit per person. */
  function RoundingExtra(b: Bill): (e: real)
    ensures 0.0 <= e <= |b.people| as real
    ensures |b.people| > 0 ==> e < |b.people| as real
  {
    SumOverBounds(b.people, RoundingGapFn(b));
    SumOver(b.people, RoundingGapFn(b))
  }

  // ---------------------------------------------------------------------------
  // Rounding-adjusted amounts
  // ---------------------------------------------------------------------------

  /** `getTipAmount`: the base tip plus whatever rounding adds, which is never negative. */
  function TipAmount(b: Bill): (t: real)
    ensures BaseTip(b) <= t
    ensures b.rounding == RoundNone ==> t == BaseTip(b)
    ensures b.rounding == RoundTotal ==> t - BaseTip(b) == RoundUpGap(BaseTotal(b))
    ensures b.rounding == RoundIndividual ==>
              t - BaseTip(b) == RoundingExtra(b) && (|b.people| > 0 ==> t - BaseTip(b) < |b.people| as real)
  {
    var baseTip := BaseTip(b);
    match b.rounding
    case RoundTotal =>
      baseTip + RoundUpGap(BaseTotal(b))
    case RoundIndividual =>
      baseTip + RoundingExtra(b)
    case RoundNone =>
      baseTip
  }

  /** `getTotal`: the grand total; a whole number whenever a rounding mode is chosen. */
  function Total(b: Bill): (t: real)
    ensures b.rounding == RoundNone ==> t == BaseTotal(b)
    ensures b.rounding == RoundTotal ==> IsWhole(t) && BaseTotal(b) <= t < BaseTotal(b) + 1.0
    ensures b.rounding == RoundIndividual ==> IsWhole(t) && t == UnroundedSum(b) + RoundingExtra(b)
  {
    match b.rounding
    case RoundTotal =>
      CeilIsWhole(BaseTotal(b));
      Ceil(BaseTotal(b)) as real
    case RoundIndividual =>
      RoundedSplits(b);
      SumOver(b.people, RoundedFn(b))
    case RoundNone =>
      BaseTotal(b)
  }

  /** The people's rounded totals are whole and exceed their unrounded totals by the rounding extra. */
  lemma RoundedSplits(b: Bill)
    ensures IsWhole(SumOver(b.people, RoundedFn(b)))
    ensures SumOver(b.people, RoundedFn(b)) == UnroundedSum(b) + RoundingExtra(b)
  {
    forall id ensures IsWhole(RoundedFn(b)(id)) {
      CeilIsWhole(Unrounded(b, id));
    }
    SumOfWholes(b.people, RoundedFn(b));
    SumOverAdd(b.people, UnroundedFn(b), RoundingGapFn(b), RoundedFn(b));
  }

  /** `getEffectiveTipPercentage`: the displayed tip as a percentage of the subtotal. */
  function EffectiveTipPercentage(b: Bill): (r: real)
    ensures Subtotal(b.items) == 0.0 ==> r == 0.0
    ensures Subtotal(b.items) != 0.0 && b.rounding == RoundNone ==> r == b.tipPercent
  {
    PercentRoundTrip(Subtotal(b.items), b.tipPercent, TipAmount(b));
    AsPercentOf(TipAmount(b), Subtotal(b.items))
  }

  // ---------------------------------------------------------------------------
  // A person's item list
  // ---------------------------------------------------------------------------

  /** An item's price divided by the number of people sharing it, or by 1 when nobody does (script.js:287). */
  function SplitCost(item: Item, assignments: map<nat, seq<nat>>): real {
    var n := |Assignees(assignments, item.id)|;
    Split(item.price, if n > 0 then n else 1)
  }

  /** `getPersonItems`: the items the person shares, in bill order, each with their part of its price. */
  function PersonItems(items: seq<Item>, assignments: map<nat, seq<nat>>, personId: nat): (r: seq<PersonItem>)
    ensures |r| <= |items|
    ensures forall k :: 0 <= k < |r| ==>
              && r[k].item in items
              && personId in Assignees(assignments, r[k].item.id)
              && r[k].splitCost == Split(r[k].item.price, |Assignees(assignments, r[k].item.id)|)
  {
    if items == [] then []
    else
      var last := items[|items| - 1];
      PersonItems(items[..|items| - 1], assignments, personId)
      + (if personId in Assignees(assignments, last.id) then [PersonItem(last, SplitCost(last, assignments))] else [])
  }

  // ---------------------------------------------------------------------------
  // The per-person loops
  // ---------------------------------------------------------------------------

  /** The `items.forEach` loop that accumulates `personSubtotal` (script.js:210-217, 229-236). */
  method AccumulateShare(b: Bill, personId: nat) returns (personSubtotal: real)
    ensures personSubtotal == ShareOf(b.items, b.assignments, personId)
  {
    personSubtotal := 0.0;
    var i := 0;
    while i < |b.items|
      invariant 0 <= i <= |b.items|
      invariant personSubtotal == ShareOf(b.items[..i], b.assignments, personId)
    {
      var item := b.items[i];
      var assignedPeople := Assignees(b.assignments, item.id);
      if personId in assignedPeople {
        personSubtotal := personSubtotal + Split(item.price, |assignedPeople|);
      }
      assert b.items[..i + 1][..i] == b.items[..i];
      i := i + 1;
    }
    assert b.items[..i] == b.items;
  }

  /**
   * The part `getPersonBaseTotal` and `getPersonTotal` share: the person's subtotal share,
   * their proportion of the subtotal, and their parts of the tax and of the base tip.
   */
  method PersonShares(b: Bill, personId: nat) returns (personSubtotal: real, personTax: real, personTip: real)
    ensures personSubtotal == ShareOf(b.items, b.assignments, personId)
    ensures personTax == PersonTax(b, personId)
    ensures personTip == PersonBaseTip(b, personId)
  {
    personSubtotal := AccumulateShare(b, personId);
    var totalSubtotal := Subtotal(b.items);
    var proportion := Ratio(personSubtotal, totalSubtotal);
    personTax := Portion(TaxAmount(b), proportion);
    personTip := Portion(BaseTip(b), proportion);
  }

  /** `getPersonBaseTotal` */
  method PersonBaseTotal(b: Bill, personId: nat) returns (t: real)
    ensures t == Unrounded(b, personId)
    ensures NonNegativeInputs(b) ==> 0.0 <= t <= BaseTotal(b)
  {
    var personSubtotal, personTax, personBaseTip := PersonShares(b, personId);
    t := personSubtotal + personTax + personBaseTip;
  }

  /** `getPersonTotal` */
  method PersonTotal(b: Bill, personId: nat) returns (r: Breakdown)
    ensures r == PersonBreakdown(b, personId)
    ensures r.total == r.subtotal + r.tax + r.tip
  {
    var personSubtotal, personTax, personTip := PersonShares(b, personId);
    if b.rounding == RoundIndividual {
      var personBaseTotal := personSubtotal + personTax + personTip;
      var roundedTotal := Ceil(personBaseTotal) as real;
      var difference := roundedTotal - personBaseTotal;
      personTip := personTip + difference;
      r := Breakdown(personSubtotal, personTax, personTip, roundedTotal);
    } else if b.rounding == RoundTotal {
      var baseTotal := BaseTotal(b);
      var difference := RoundUpGap(baseTotal);
      var personBaseTotal := personSubtotal + personTax + personTip;
      assert personBaseTotal == Unrounded(b, personId);
      var adjustmentRatio := Ratio(personBaseTotal, baseTotal);
      var personTipAdjustment := Portion(difference, adjustmentRatio);
      assert personTipAdjustment == TotalRoundingShare(b, personId);
      r := Breakdown(personSubtotal, personTax, personTip + personTipAdjustment, personBaseTotal + personTipAdjustment);
    } else {
      r := Breakdown(personSubtotal, personTax, personTip, personSubtotal + personTax + personTip);
    }
  }
}

=== FILE: engine_proofs.dfy ===
/**
 * Accounting identities of the allocation engine: the people's totals add up to the
 * grand total, rounding only adds, a person with nothing assigned pays nothing, and a
 * person's item list adds up to their subtotal share.
 */
module EngineProofs {
  import opened Money
  import opened BillData
  import opened Engine

  // ---------------------------------------------------------------------------
  // Every item's price is shared out exactly
  // ---------------------------------------------------------------------------

  function Elems(ids: seq<nat>): set<nat> {
    set id | id in ids
  }

  /** 1 for the ids in `ids`, 0 for the others. */
  function MemberFn(ids: seq<nat>): nat -> real {
    (personId: nat) => if personId in ids then 1.0 else 0.0
  }

  /** Each person's part of one item, as a function of their id. */
  function ContributionFn(item: Item, assignments: map<nat, seq<nat>>): nat -> real {
    (personId: nat) => Contribution(item, assignments, personId)
  }

  /** Each person's subtotal share, as a function of their id. */
  function ShareFn(items: seq<Item>, assignments: map<nat, seq<nat>>): nat -> real {
    (personId: nat) => ShareOf(items, assignments, personId)
  }

  /** Each person's displayed total, as a function of their id. */
  function TotalFn(b: Bill): nat -> real {
    (personId: nat) => PersonBreakdown(b, personId).total
  }

  /** The sum of the people's displayed totals. */
  function TotalsSum(b: Bill): real {
    SumOver(b.people, TotalFn(b))
  }

  lemma {:induction false} DistinctCount(ids: seq<nat>)
    requires NoDuplicates(ids)
    ensures |Elems(ids)| == |ids|
  {
    if ids != [] {
      var pre, last := ids[..|ids| - 1], ids[|ids| - 1];
      assert NoDuplicates(pre) by {
        forall i, j | 0 <= i < j < |pre| ensures pre[i] != pre[j] {
          assert pre[i] == ids[i] && pre[j] == ids[j];
        }
      }
      DistinctCount(pre);
      assert Elems(ids) == Elems(pre) + {last} by {
        assert ids == pre + [last];
      }
    }
  }

  lemma PrefixKeepsDistinctIds(people: seq<Person>)
    requires people != [] && DistinctPersonIds(people)
    ensures DistinctPersonIds(people[..|people| - 1])
    ensures people[|people| - 1].id !in PersonIds(people[..|people| - 1])
    ensures PersonIds(people) == PersonIds(people[..|people| - 1]) + {people[|people| - 1].id}
  {
    var pre, last := people[..|people| - 1], people[|people| - 1];
    assert people == pre + [last];
  }

  lemma AddOneToBoth(both: set<nat>, all: set<nat>, elems: set<nat>, id: nat)
    requires both == all * elems && id !in all
    ensures (all + {id}) * elems == if id in elems then both + {id} else both
    ensures |(all + {id}) * elems| == if id in elems then |both| + 1 else |both|
  {
  }

  /** With distinct person ids, the people counted by `MemberFn(ids)` are the ids in both. */
  lemma {:induction false} MemberCount(people: seq<Person>, ids: seq<nat>)
    requires DistinctPersonIds(people)
    ensures SumOver(people, MemberFn(ids)) == |PersonIds(people) * Elems(ids)| as real
  {
    if people != [] {
      var pre, last := people[..|people| - 1], people[|people| - 1];
      PrefixKeepsDistinctIds(people);
      MemberCount(pre, ids);
      AddOneToBoth(PersonIds(pre) * Elems(ids), PersonIds(pre), Elems(ids), last.id);
      assert MemberFn(ids)(last.id) == if last.id in Elems(ids) then 1.0 else 0.0;
    }
  }

  /** Distinct people ids, and a list of distinct ids all on the bill: every id on the list is counted once. */
  lemma SharersCounted(sharers: seq<nat>, people: seq<Person>)
    requires NoDuplicates(sharers)
    requires forall q :: q in sharers ==> q in PersonIds(people)
    requires DistinctPersonIds(people)
    ensures SumOver(people, MemberFn(sharers)) == |sharers| as real
  {
    MemberCount(people, sharers);
    DistinctCount(sharers);
    assert PersonIds(people) * Elems(sharers) == Elems(sharers);
  }

  /** Each person's part of an item is an equal share of its price if they share it, and nothing otherwise. */
  lemma ContributionsAreShares(item: Item, assignments: map<nat, seq<nat>>)
    requires |Assignees(assignments, item.id)| > 0
    ensures forall id :: ContributionFn(item, assignments)(id)
                         == Portion(Split(item.price, |Assignees(assignments, item.id)|), MemberFn(Assignees(assignments, item.id))(id))
  {
    forall id ensures ContributionFn(item, assignments)(id)
                      == Portion(Split(item.price, |Assignees(assignments, item.id)|), MemberFn(Assignees(assignments, item.id))(id)) {
    }
  }

  /** An item shared by distinct people, all on the bill, is paid in full by them. */
  lemma SpreadIsPrice(item: Item, assignments: map<nat, seq<nat>>, people: seq<Person>)
    requires |Assignees(assignments, item.id)| > 0
    requires NoDuplicates(Assignees(assignments, item.id))
    requires forall q :: q in Assignees(assignments, item.id) ==> q in PersonIds(people)
    requires DistinctPersonIds(people)
    ensures SumOver(people, ContributionFn(item, assignments)) == item.price
  {
    var sharers := Assignees(assignments, item.id);
    ContributionsAreShares(item, assignments);
    SumOverScale(people, MemberFn(sharers), ContributionFn(item, assignments), Split(item.price, |sharers|));
    SharersCounted(sharers, people);
  }

  /** The people's shares add up to the subtotal when every item is shared out to people on the bill. */
  lemma {:induction false} SharesSumToSubtotal(b: Bill, items: seq<Item>)
    requires Consistent(b) && EveryItemAssigned(b)
    requires forall it :: it in items ==> it in b.items
    ensures SumOver(b.people, ShareFn(items, b.assignments)) == Subtotal(items)
  {
    if items == [] {
      SumOverZero(b.people, ShareFn(items, b.assignments));
    } else {
      var pre, last := items[..|items| - 1], items[|items| - 1];
      SharesSumToSubtotal(b, pre);
      SumOverAdd(b.people, ShareFn(pre, b.assignments), ContributionFn(last, b.assignments), ShareFn(items, b.assignments));
      SpreadIsPrice(last, b.assignments, b.people);
    }
  }

  // ---------------------------------------------------------------------------
  // Conservation
  // ---------------------------------------------------------------------------

  /** Each person's proportion of the subtotal, as a function of their id. */
  function ProportionFn(b: Bill): nat -> real {
    (personId: nat) => Proportion(b, personId)
  }

  /** Each person's part of the tax, as a function of their id. */
  function PersonTaxFn(b: Bill): nat -> real {
    (personId: nat) => PersonTax(b, personId)
  }

  /** Each person's part of the base tip, as a function of their id. */
  function PersonTipFn(b: Bill): nat -> real {
    (personId: nat) => PersonBaseTip(b, personId)
  }

  /** Each person's subtotal share plus their part of the tax, as a function of their id. */
  function ShareAndTaxFn(b: Bill): nat -> real {
    (personId: nat) => ShareOf(b.items, b.assignments, personId) + PersonTax(b, personId)
  }

  lemma SharesScaleProportions(b: Bill)
    requires Subtotal(b.items) > 0.0
    ensures forall id :: ShareFn(b.items, b.assignments)(id) == Portion(Subtotal(b.items), ProportionFn(b)(id))
  {
    forall id ensures ShareFn(b.items, b.assignments)(id) == Portion(Subtotal(b.items), ProportionFn(b)(id)) {
    }
  }

  lemma TaxSharesScaleProportions(b: Bill)
    ensures forall id :: PersonTaxFn(b)(id) == Portion(TaxAmount(b), ProportionFn(b)(id))
  {
    forall id ensures PersonTaxFn(b)(id) == Portion(TaxAmount(b), ProportionFn(b)(id)) {
    }
  }

  lemma TipSharesScaleProportions(b: Bill)
    ensures forall id :: PersonTipFn(b)(id) == Portion(BaseTip(b), ProportionFn(b)(id))
  {
    forall id ensures PersonTipFn(b)(id) == Portion(BaseTip(b), ProportionFn(b)(id)) {
    }
  }

  /** The people's proportions of a positive subtotal add up to 1 when every item is shared out to people on the bill. */
  lemma ProportionsSumToOne(b: Bill)
    requires Consistent(b) && EveryItemAssigned(b) && Subtotal(b.items) > 0.0
    ensures SumOver(b.people, ProportionFn(b)) == 1.0
  {
    SharesScaleProportions(b);
    SharesSumToSubtotal(b, b.items);
    RatiosSumToOne(b.people, ProportionFn(b), ShareFn(b.items, b.assignments), Subtotal(b.items));
  }

  /** The people's parts of the tax add up to the tax, unless there is a tax on a zero subtotal. */
  lemma TaxSharesSumToTax(b: Bill)
    requires Consistent(b) && EveryItemAssigned(b)
    requires Subtotal(b.items) > 0.0 || TaxAmount(b) == 0.0
    ensures SumOver(b.people, PersonTaxFn(b)) == TaxAmount(b)
  {
    TaxSharesScaleProportions(b);
    if Subtotal(b.items) > 0.0 {
      ProportionsSumToOne(b);
    }
    PartsSumToWhole(b.people, ProportionFn(b), PersonTaxFn(b), TaxAmount(b));
  }

  /** The people's parts of the base tip add up to the base tip, unless the subtotal is negative. */
  lemma TipSharesSumToTip(b: Bill)
    requires Consistent(b) && EveryItemAssigned(b) && Subtotal(b.items) >= 0.0
    ensures SumOver(b.people, PersonTipFn(b)) == BaseTip(b)
  {
    TipSharesScaleProportions(b);
    if Subtotal(b.items) > 0.0 {
      ProportionsSumToOne(b);
    }
    PartsSumToWhole(b.people, ProportionFn(b), PersonTipFn(b), BaseTip(b));
  }

  /**
   * The people's unrounded totals add up to the unrounded bill when every item is
   * shared out to people on the bill, and tax is zero whenever the subtotal is.
   */
  lemma UnroundedSumIsBaseTotal(b: Bill)
    requires Consistent(b) && EveryItemAssigned(b) && NonNegativeInputs(b)
    requires Subtotal(b.items) > 0.0 || TaxAmount(b) == 0.0
    ensures UnroundedSum(b) == BaseTotal(b)
  {
    SumOverAdd(b.people, ShareFn(b.items, b.assignments), PersonTaxFn(b), ShareAndTaxFn(b));
    SumOverAdd(b.people, ShareAndTaxFn(b), PersonTipFn(b), UnroundedFn(b));
    SharesSumToSubtotal(b, b.items);
    TaxSharesSumToTax(b);
    TipSharesSumToTip(b);
  }

  /** `'individual'` mode: the people's totals are the grand total, for every bill. */
  lemma IndividualConservation(b: Bill)
    requires b.rounding == RoundIndividual
    ensures TotalsSum(b) == Total(b)
    ensures IsWhole(TotalsSum(b))
  {
    SumOverSame(b.people, RoundedFn(b), TotalFn(b));
  }

  /** `'none'` mode: the people's totals add up to subtotal + tax + tip. */
  lemma NoneConservation(b: Bill)
    requires b.rounding == RoundNone
    requires Consistent(b) && EveryItemAssigned(b) && NonNegativeInputs(b)
    requires Subtotal(b.items) > 0.0 || TaxAmount(b) == 0.0
    ensures TotalsSum(b) == Total(b) == Subtotal(b.items) + TaxAmount(b) + TipAmount(b)
  {
    SumOverSame(b.people, UnroundedFn(b), TotalFn(b));
    UnroundedSumIsBaseTotal(b);
  }

  /** Each person's unrounded total as a fraction of the unrounded bill, as a function of their id. */
  function AdjustmentRatioFn(b: Bill): nat -> real {
    (personId: nat) => Ratio(Unrounded(b, personId), BaseTotal(b))
  }

  /** Each person's part of what rounding the bill up adds, as a function of their id. */
  function TotalRoundingShareFn(b: Bill): nat -> real {
    (personId: nat) => TotalRoundingShare(b, personId)
  }

  lemma UnroundedScaleAdjustmentRatios(b: Bill)
    requires BaseTotal(b) > 0.0
    ensures forall id :: UnroundedFn(b)(id) == Portion(BaseTotal(b), AdjustmentRatioFn(b)(id))
  {
    forall id ensures UnroundedFn(b)(id) == Portion(BaseTotal(b), AdjustmentRatioFn(b)(id)) {
    }
  }

  lemma RoundingSharesScaleAdjustmentRatios(b: Bill)
    ensures forall id :: TotalRoundingShareFn(b)(id) == Portion(RoundUpGap(BaseTotal(b)), AdjustmentRatioFn(b)(id))
  {
    forall id ensures TotalRoundingShareFn(b)(id) == Portion(RoundUpGap(BaseTotal(b)), AdjustmentRatioFn(b)(id)) {
    }
  }

  /** In `'total'` mode the people's parts of the rounding add up to what rounding the bill adds. */
  lemma RoundingSharesSumToGap(b: Bill)
    requires Consistent(b) && EveryItemAssigned(b) && NonNegativeInputs(b)
    requires Subtotal(b.items) > 0.0 || TaxAmount(b) == 0.0
    ensures SumOver(b.people, TotalRoundingShareFn(b)) == RoundUpGap(BaseTotal(b))
  {
    RoundingSharesScaleAdjustmentRatios(b);
    if BaseTotal(b) > 0.0 {
      UnroundedScaleAdjustmentRatios(b);
      UnroundedSumIsBaseTotal(b);
      RatiosSumToOne(b.people, AdjustmentRatioFn(b), UnroundedFn(b), BaseTotal(b));
    } else {
      assert IsWhole(BaseTotal(b));
    }
    PartsSumToWhole(b.people, AdjustmentRatioFn(b), TotalRoundingShareFn(b), RoundUpGap(BaseTotal(b)));
  }

  /** `'total'` mode: the people's adjusted totals add up to the rounded-up bill, a whole number. */
  lemma TotalModeConservation(b: Bill)
    requires b.rounding == RoundTotal
    requires Consistent(b) && EveryItemAssigned(b) && NonNegativeInputs(b)
    requires Subtotal(b.items) > 0.0 || TaxAmount(b) == 0.0
    ensures TotalsSum(b) == Total(b) == Ceil(BaseTotal(b)) as real
    ensures IsWhole(TotalsSum(b))
  {
    SumOverAdd(b.people, UnroundedFn(b), TotalRoundingShareFn(b), TotalFn(b));
    UnroundedSumIsBaseTotal(b);
    RoundingSharesSumToGap(b);
    CeilIsWhole(BaseTotal(b));
  }

  /**
   * The central identity: for every rounding mode, the people's displayed totals add up
   * to the displayed grand total, given a consistent, fully assigned bill (no condition
   * at all in `'individual'` mode).
   */
  lemma Conservation(b: Bill)
    requires b.rounding == RoundIndividual ||
             (Consistent(b) && EveryItemAssigned(b) && NonNegativeInputs(b) &&
              (Subtotal(b.items) > 0.0 || TaxAmount(b) == 0.0))
    ensures TotalsSum(b) == Total(b)
  {
    match b.rounding
    case RoundIndividual => IndividualConservation(b);
    case RoundNone => NoneConservation(b);
    case RoundTotal => TotalModeConservation(b);
  }

  /** The displayed total is subtotal + tax + displayed tip (in `'individual'` mode only for a consistent, fully assigned bill). */
  lemma TotalIsSubtotalTaxTip(b: Bill)
    requires b.rounding == RoundIndividual ==>
               Consistent(b) && EveryItemAssigned(b) && NonNegativeInputs(b) &&
               (Subtotal(b.items) > 0.0 || TaxAmount(b) == 0.0)
    ensures Total(b) == Subtotal(b.items) + TaxAmount(b) + TipAmount(b)
  {
    if b.rounding == RoundIndividual {
      UnroundedSumIsBaseTotal(b);
    }
  }

  // ---------------------------------------------------------------------------
  // Rounding only adds
  // ---------------------------------------------------------------------------

  /**
   * Rounding never lowers the grand total: `'total'` adds less than one unit, and
   * `'individual'` adds less than one unit per person. In `'individual'` mode this
   * needs a consistent, fully assigned bill: the people's rounded totals leave out
   * whatever nobody shares.
   */
  lemma RoundingOnlyAdds(b: Bill)
    requires b.rounding == RoundIndividual ==>
               Consistent(b) && EveryItemAssigned(b) && NonNegativeInputs(b) &&
               (Subtotal(b.items) > 0.0 || TaxAmount(b) == 0.0)
    ensures Total(b.(rounding := RoundNone)) <= Total(b)
    ensures b.rounding == RoundTotal ==> Total(b) - Total(b.(rounding := RoundNone)) < 1.0
    ensures b.rounding == RoundIndividual && |b.people| > 0 ==>
              Total(b) - Total(b.(rounding := RoundNone)) < |b.people| as real
  {
    var unrounded := b.(rounding := RoundNone);
    assert BaseTotal(unrounded) == BaseTotal(b);
    if b.rounding == RoundIndividual {
      UnroundedSumIsBaseTotal(b);
    }
  }

  /** On a positive subtotal the displayed tip percentage is never below the one entered: rounding only adds to the tip. */
  lemma EffectiveTipAtLeastEntered(b: Bill)
    requires Subtotal(b.items) > 0.0
    ensures EffectiveTipPercentage(b) >= b.tipPercent
  {
    PercentRoundTrip(Subtotal(b.items), b.tipPercent, TipAmount(b));
  }

  // ---------------------------------------------------------------------------
  // A person with nothing assigned
  // ---------------------------------------------------------------------------

  lemma {:induction false} ShareOfUnassigned(items: seq<Item>, assignments: map<nat, seq<nat>>, personId: nat)
    requires forall it :: it in items ==> personId !in Assignees(assignments, it.id)
    ensures ShareOf(items, assignments, personId) == 0.0
  {
    if items != [] {
      ShareOfUnassigned(items[..|items| - 1], assignments, personId);
    }
  }

  /** A person who shares no item owes nothing, in every rounding mode. */
  lemma UnassignedPersonOwesNothing(b: Bill, personId: nat)
    requires forall it :: it in b.items ==> personId !in Assignees(b.assignments, it.id)
    ensures PersonBreakdown(b, personId) == Breakdown(0.0, 0.0, 0.0, 0.0)
  {
    ShareOfUnassigned(b.items, b.assignments, personId);
    CeilOfWhole(0.0);
    assert Unrounded(b, personId) == 0.0;
  }

  /** A person's part of the tax does not depend on the rounding mode. */
  lemma TaxShareIgnoresRounding(b: Bill, personId: nat, mode: Rounding)
    ensures PersonTax(b.(rounding := mode), personId) == PersonTax(b, personId)
  {
    var other := b.(rounding := mode);
    assert other.items == b.items && other.tax == b.tax;
    assert Proportion(other, personId) == Proportion(b, personId);
  }

  /** Rounding changes only the tip: the subtotal and tax parts are the same in every mode. */
  lemma ModesAgreeOnSubtotalAndTax(b: Bill, personId: nat, mode: Rounding)
    ensures PersonBreakdown(b.(rounding := mode), personId).subtotal == PersonBreakdown(b, personId).subtotal
    ensures PersonBreakdown(b.(rounding := mode), personId).tax == PersonBreakdown(b, personId).tax
  {
    TaxShareIgnoresRounding(b, personId, mode);
  }

  // ---------------------------------------------------------------------------
  // A person's item list
  // ---------------------------------------------------------------------------

  function SplitCostSum(list: seq<PersonItem>): real {
    if list == [] then 0.0 else SplitCostSum(list[..|list| - 1]) + list[|list| - 1].splitCost
  }

  /** The indices of the items the person shares: exactly those items, in increasing order. */
  ghost function SharedPositions(items: seq<Item>, assignments: map<nat, seq<nat>>, personId: nat): seq<nat> {
    if items == [] then []
    else SharedPositions(items[..|items| - 1], assignments, personId)
         + (if personId in Assignees(assignments, items[|items| - 1].id) then [|items| - 1] else [])
  }

  /** The positions are exactly the indices of the items the person shares, in increasing order. */
  lemma {:induction false} SharedPositionsAreShared(items: seq<Item>, assignments: map<nat, seq<nat>>, personId: nat)
    ensures var pos := SharedPositions(items, assignments, personId);
      && (forall k :: 0 <= k < |pos| ==> pos[k] < |items|)
      && (forall k, l :: 0 <= k < l < |pos| ==> pos[k] < pos[l])
      && (forall i :: 0 <= i < |items| ==> (i in pos <==> personId in Assignees(assignments, items[i].id)))
  {
    if items != [] {
      var pre := items[..|items| - 1];
      SharedPositionsAreShared(pre, assignments, personId);
      var prePos := SharedPositions(pre, assignments, personId);
      forall i | 0 <= i < |pre|
        ensures items[i] == pre[i]
      {
      }
    }
  }

  /** One more item on the bill: the list and the positions grow together, or not at all. */
  lemma ExtendSharedList(pre: seq<Item>, last: Item, assignments: map<nat, seq<nat>>, personId: nat,
                         preList: seq<PersonItem>, prePos: seq<nat>)
    requires |preList| == |prePos|
    requires forall k :: 0 <= k < |prePos| ==>
               prePos[k] < |pre| && preList[k] == PersonItem(pre[prePos[k]], SplitCost(pre[prePos[k]], assignments))
    ensures var shared := personId in Assignees(assignments, last.id);
      var list := preList + (if shared then [PersonItem(last, SplitCost(last, assignments))] else []);
      var pos := prePos + (if shared then [|pre|] else []);
      && |list| == |pos|
      && forall k :: 0 <= k < |pos| ==>
           pos[k] < |pre| + 1 && list[k] == PersonItem((pre + [last])[pos[k]], SplitCost((pre + [last])[pos[k]], assignments))
  {
  }

  /** The person's item list holds exactly the items they share, in the bill's order, each with its split cost. */
  lemma {:induction false} PersonItemsAreSharedItems(items: seq<Item>, assignments: map<nat, seq<nat>>, personId: nat)
    ensures var list, pos := PersonItems(items, assignments, personId), SharedPositions(items, assignments, personId);
      && |list| == |pos|
      && forall k :: 0 <= k < |pos| ==>
           pos[k] < |items| && list[k] == PersonItem(items[pos[k]], SplitCost(items[pos[k]], assignments))
  {
    if items != [] {
      var pre, last := items[..|items| - 1], items[|items| - 1];
      PersonItemsAreSharedItems(pre, assignments, personId);
      ExtendSharedList(pre, last, assignments, personId,
                       PersonItems(pre, assignments, personId), SharedPositions(pre, assignments, personId));
      var shared := personId in Assignees(assignments, last.id);
      assert PersonItems(items, assignments, personId)
          == PersonItems(pre, assignments, personId) + (if shared then [PersonItem(last, SplitCost(last, assignments))] else []);
      assert SharedPositions(items, assignments, personId)
          == SharedPositions(pre, assignments, personId) + (if shared then [|pre|] else []);
      assert items == pre + [last];
    }
  }

  /** The split costs on a person's list add up to their subtotal share. */
  lemma {:induction false} SplitCostsSumToShare(items: seq<Item>, assignments: map<nat, seq<nat>>, personId: nat)
    ensures SplitCostSum(PersonItems(items, assignments, personId)) == ShareOf(items, assignments, personId)
  {
    if items != [] {
      var pre, last := items[..|items| - 1], items[|items| - 1];
      SplitCostsSumToShare(pre, assignments, personId);
      var list := PersonItems(items, assignments, personId);
      if personId in Assignees(assignments, last.id) {
        assert list[..|list| - 1] == PersonItems(pre, assignments, personId);
      } else {
        assert list == PersonItems(pre, assignments, personId);
      }
    }
  }
}

=== FILE: money.dfy ===
/**
 * Money is an exact `real`. The bill uses three operations on amounts: taking a
 * fraction of an amount, expressing an amount as a percentage, and rounding up to
 * a whole unit.
 */
module Money {

  /** Rounding up (script.js:169): the least integer that is not below `x`. */
  function Ceil(x: real): (c: int)
    ensures x <= c as real < x + 1.0
  {
    -((-x).Floor)
  }

  /** `x` is a whole number of currency units. */
  predicate IsWhole(x: real) {
    x.Floor as real == x
  }

  lemma CeilIsWhole(x: real)
    ensures IsWhole(Ceil(x) as real)
  {
  }

  /** Rounding a whole amount up leaves it as it is. */
  lemma CeilOfWhole(x: real)
    requires IsWhole(x)
    ensures Ceil(x) as real == x
  {
    assert (-x).Floor == -(x.Floor);
  }

  lemma WholeSum(x: real, y: real)
    requires IsWhole(x) && IsWhole(y)
    ensures IsWhole(x + y)
  {
    var n, m := x.Floor, y.Floor;
    assert x + y == (n + m) as real;
  }

  /** What rounding `x` up to a whole unit adds (script.js:245-247); under one unit, and nothing when `x` is whole. */
  function RoundUpGap(x: real): (g: real)
    ensures 0.0 <= g < 1.0
    ensures IsWhole(x) ==> g == 0.0
  {
    if IsWhole(x) then CeilOfWhole(x); Ceil(x) as real - x
    else Ceil(x) as real - x
  }

  /** An amount scaled by a fraction (script.js:222-223); a fraction in [0, 1] of a non-negative amount lies between 0 and the amount. */
  function Portion(amount: real, fraction: real): (p: real)
    ensures amount >= 0.0 && 0.0 <= fraction <= 1.0 ==> 0.0 <= p <= amount
  {
    if amount >= 0.0 && 0.0 <= fraction <= 1.0 then
      assert amount * fraction <= amount * 1.0;
      amount * fraction
    else amount * fraction
  }

  /** The fraction `part` is of `whole`, or 0 when `whole` is not positive (script.js:220, 262). */
  function Ratio(part: real, whole: real): (r: real)
    ensures whole <= 0.0 ==> r == 0.0
    ensures whole > 0.0 ==> Portion(whole, r) == part
    ensures 0.0 <= part <= whole ==> 0.0 <= r <= 1.0
  {
    if whole > 0.0 then
      assert part / whole * whole == part;
      part / whole
    else 0.0
  }

  /** `1` is the only fraction of a non-zero amount that is the whole amount. */
  lemma WholeFraction(amount: real, fraction: real)
    requires amount != 0.0 && Portion(amount, fraction) == amount
    ensures fraction == 1.0
  {
    assert (fraction - 1.0) * amount == 0.0;
  }

  /** An equal share of an amount split `n` ways (script.js:215); the `n` shares make up the amount again. */
  function Split(amount: real, n: nat): (r: real)
    requires n > 0
    ensures Portion(r, n as real) == amount
    ensures amount >= 0.0 ==> 0.0 <= r <= amount
  {
    var d := n as real;
    var r := amount / d;
    assert r * d == amount;
    assert Portion(r, d) == amount;
    if amount >= 0.0 then
      assert r >= 0.0 && d - 1.0 >= 0.0;
      assert amount - r == r * (d - 1.0) >= 0.0;
      r
    else r
  }

  /** The given percentage of an amount (script.js:154, 161). */
  function PercentOf(amount: real, percent: real): (r: real)
    ensures amount >= 0.0 && percent >= 0.0 ==> r >= 0.0
    ensures amount == 0.0 ==> r == 0.0
  {
    amount * (percent / 100.0)
  }

  /** `part` as a percentage of `whole`, or 0 when `whole` is zero (script.js:186-187). */
  function AsPercentOf(part: real, whole: real): (r: real)
    ensures whole == 0.0 ==> r == 0.0
  {
    if whole == 0.0 then 0.0 else (part / whole) * 100.0
  }

  /**
   * Reading a percentage of a non-zero amount back as a percentage of it gives the
   * percentage again; reading back anything larger gives at least as much.
   */
  lemma PercentRoundTrip(whole: real, percent: real, part: real)
    ensures whole != 0.0 && part == PercentOf(whole, percent) ==> AsPercentOf(part, whole) == percent
    ensures whole > 0.0 && part >= PercentOf(whole, percent) ==> AsPercentOf(part, whole) >= percent
  {
    if whole != 0.0 {
      assert whole * (percent / 100.0) / whole == percent / 100.0;
      if whole > 0.0 && part >= PercentOf(whole, percent) {
        assert part / whole >= whole * (percent / 100.0) / whole;
      }
    }
  }
}

=== FILE: scenarios.dfy ===
/**
 * Worked bills: one item shared by two people with a 10% tax and a 15% tip, without
 * rounding, with each person rounded up, with a second item nobody shares, and with a
 * negative price.
 */
module Scenarios {
  import opened Money
  import opened BillData
  import opened Engine

  /** One item of the given price, shared by Ann (10) and Ben (11); tax 10%, tip 15%. */
  function Dinner(price: real, mode: Rounding): Bill {
    Bill([Item(1, "pizza", price)], [Person(10, "Ann"), Person(11, "Ben")], map[1 := [10, 11]],
         Tax(Percentage, 10.0), 15.0, mode)
  }

  /** 20.00 split two ways: tax 2.00, tip 3.00, total 25.00, and 12.50 each. */
  lemma EvenSplitWithoutRounding()
    ensures var b := Dinner(20.0, RoundNone);
      && Subtotal(b.items) == 20.0 && TaxAmount(b) == 2.0 && TipAmount(b) == 3.0 && Total(b) == 25.0
      && PersonBreakdown(b, 10) == Breakdown(10.0, 1.0, 1.5, 12.5)
      && PersonBreakdown(b, 11) == Breakdown(10.0, 1.0, 1.5, 12.5)
  {
    var b := Dinner(20.0, RoundNone);
    assert Subtotal(b.items) == 20.0;
    assert ShareOf(b.items, b.assignments, 10) == 10.0;
    assert ShareOf(b.items, b.assignments, 11) == 10.0;
    assert Proportion(b, 10) == 0.5 && Proportion(b, 11) == 0.5;
  }

  /**
   * 21.00 split two ways with each person rounded up: each owes 13.125 before rounding
   * and 14.00 after, so the bill comes to 28.00 and the tip to 4.90.
   */
  lemma EvenSplitRoundedIndividually()
    ensures var b := Dinner(21.0, RoundIndividual);
      && TaxAmount(b) == 2.1 && BaseTip(b) == 3.15 && BaseTotal(b) == 26.25
      && Unrounded(b, 10) == 13.125 && PersonBreakdown(b, 10).total == 14.0
      && Unrounded(b, 11) == 13.125 && PersonBreakdown(b, 11).total == 14.0
      && Total(b) == 28.0 && TipAmount(b) == 4.9
  {
    var b := Dinner(21.0, RoundIndividual);
    assert Subtotal(b.items) == 21.0;
    assert ShareOf(b.items, b.assignments, 10) == 10.5;
    assert ShareOf(b.items, b.assignments, 11) == 10.5;
    assert Proportion(b, 10) == 0.5 && Proportion(b, 11) == 0.5;
    assert Unrounded(b, 10) == 13.125 && Unrounded(b, 11) == 13.125;
    assert Ceil(13.125) == 14;
    assert RoundUpGap(13.125) == 0.875;
    assert b.people[..1] == [Person(10, "Ann")];
    assert SumOver(b.people, RoundedFn(b)) == 28.0;
    assert SumOver(b.people, RoundingGapFn(b)) == 1.75;
  }

  /** The 20.00 dinner with a 10.00 wine that nobody shares. */
  function DinnerWithWine(mode: Rounding): Bill {
    Dinner(20.0, mode).(items := [Item(1, "pizza", 20.0), Item(2, "wine", 10.0)])
  }

  /**
   * An item nobody shares still counts towards the subtotal, the tax and the tip, but
   * no person pays for it: the people's totals add up to less than the grand total.
   */
  lemma UnsharedItemIsPaidByNobody()
    ensures var b := DinnerWithWine(RoundNone);
      && Subtotal(b.items) == 30.0 && Total(b) == 37.5
      && PersonBreakdown(b, 10).total == 12.5 && PersonBreakdown(b, 11).total == 12.5
      && SumOver(b.people, UnroundedFn(b)) == 25.0
  {
    var b := DinnerWithWine(RoundNone);
    assert b.items[..1] == [Item(1, "pizza", 20.0)];
    assert Subtotal(b.items) == 30.0;
    assert ShareOf(b.items, b.assignments, 10) == 10.0;
    assert ShareOf(b.items, b.assignments, 11) == 10.0;
    assert Proportion(b, 10) == 1.0 / 3.0 && Proportion(b, 11) == 1.0 / 3.0;
    assert b.people[..1] == [Person(10, "Ann")];
  }

  /**
   * With an item nobody shares, rounding each person up can lower the grand total: the
   * people's rounded totals (13.00 each) leave out the unshared wine, so the bill comes
   * to 26.00 against 37.50 unrounded, and it is no longer subtotal + tax + tip (38.50).
   */
  lemma IndividualRoundingDropsUnsharedItem()
    ensures var b := DinnerWithWine(RoundIndividual);
      && Total(b) == 26.0 && Total(b.(rounding := RoundNone)) == 37.5
      && Total(b) < Total(b.(rounding := RoundNone))
      && TipAmount(b) == 5.5
      && Subtotal(b.items) + TaxAmount(b) + TipAmount(b) == 38.5
  {
    var b := DinnerWithWine(RoundIndividual);
    assert b.items[..1] == [Item(1, "pizza", 20.0)];
    assert Subtotal(b.items) == 30.0;
    assert ShareOf(b.items, b.assignments, 10) == 10.0;
    assert ShareOf(b.items, b.assignments, 11) == 10.0;
    assert Proportion(b, 10) == 1.0 / 3.0 && Proportion(b, 11) == 1.0 / 3.0;
    assert Unrounded(b, 10) == 12.5 && Unrounded(b, 11) == 12.5;
    assert Ceil(12.5) == 13;
    assert RoundUpGap(12.5) == 0.5;
    assert b.people[..1] == [Person(10, "Ann")];
    assert SumOver(b.people, RoundedFn(b)) == 26.0;
    assert SumOver(b.people, RoundingGapFn(b)) == 1.0;
  }

  /**
   * The form accepts a negative price: with 10.00 paid by Ann and -5.00 by Ben, Ann's
   * share is twice the subtotal, so her proportion is 2 and Ben's is -1.
   */
  lemma NegativePriceBreaksProportionBounds()
    ensures var b := Bill([Item(1, "pizza", 10.0), Item(2, "coupon", -5.0)],
                          [Person(10, "Ann"), Person(11, "Ben")], map[1 := [10], 2 := [11]],
                          Tax(Dollar, 0.0), 0.0, RoundNone);
      && Subtotal(b.items) == 5.0
      && ShareOf(b.items, b.assignments, 10) == 10.0
      && Proportion(b, 10) == 2.0 && Proportion(b, 11) == -1.0
  {
    var b := Bill([Item(1, "pizza", 10.0), Item(2, "coupon", -5.0)],
                  [Person(10, "Ann"), Person(11, "Ben")], map[1 := [10], 2 := [11]],
                  Tax(Dollar, 0.0), 0.0, RoundNone);
    assert b.items[..1] == [Item(1, "pizza", 10.0)];
    assert Subtotal(b.items) == 5.0;
    assert ShareOf(b.items, b.assignments, 10) == 10.0;
    assert ShareOf(b.items, b.assignments, 11) == -5.0;
  }
}

=== FILE: store.dfy ===
/**
 * The bill store (script.js:35-142): the items, the people, the assignment of items
 * to people and the tax, tip and rounding settings, changed in place by the
 * operations of the form. Each list update is specified by a function on values;
 * the store's methods apply them and keep the store invariant.
 */
module Store {
  import opened BillData
  import opened Engine
  import opened EngineProofs

  // ---------------------------------------------------------------------------
  // The list and dictionary updates, on values
  // ---------------------------------------------------------------------------

  /** The list without `id`, in the same order (script.js:122, 134). */
  function Without(ids: seq<nat>, id: nat): (r: seq<nat>)
    ensures forall x :: x in r <==> x in ids && x != id
    ensures id !in ids ==> r == ids
  {
    if ids == [] then []
    else
      var pre, last := ids[..|ids| - 1], ids[|ids| - 1];
      assert ids == pre + [last];
      Without(pre, id) + (if last != id then [last] else [])
  }

  lemma AppendFresh(ids: seq<nat>, x: nat)
    requires NoDuplicates(ids) && x !in ids
    ensures NoDuplicates(ids + [x])
  {
    var s := ids + [x];
    forall i, j | 0 <= i < j < |s|
      ensures s[i] != s[j]
    {
      if j == |ids| {
        assert s[i] == ids[i];
      }
    }
  }

  /** Filtering never introduces a repeat. */
  lemma {:induction false} WithoutKeepsDistinct(ids: seq<nat>, id: nat)
    requires NoDuplicates(ids)
    ensures NoDuplicates(Without(ids, id))
  {
    if ids != [] {
      var pre, last := ids[..|ids| - 1], ids[|ids| - 1];
      assert NoDuplicates(pre) by {
        forall i, j | 0 <= i < j < |pre|
          ensures pre[i] != pre[j]
        {
          assert pre[i] == ids[i] && pre[j] == ids[j];
        }
      }
      WithoutKeepsDistinct(pre, id);
      if last != id {
        assert last !in pre by {
          forall i | 0 <= i < |pre|
            ensures pre[i] != last
          {
            assert pre[i] == ids[i];
          }
        }
        AppendFresh(Without(pre, id), last);
      }
    }
  }

  /** Removing an id that occurs once shortens the list by one. */
  lemma {:induction false} WithoutRemovesOne(ids: seq<nat>, id: nat)
    requires NoDuplicates(ids) && id in ids
    ensures |Without(ids, id)| == |ids| - 1
  {
    var pre, last := ids[..|ids| - 1], ids[|ids| - 1];
    assert ids == pre + [last];
    assert NoDuplicates(pre) by {
      forall i, j | 0 <= i < j < |pre|
        ensures pre[i] != pre[j]
      {
        assert pre[i] == ids[i] && pre[j] == ids[j];
      }
    }
    if last == id {
      assert id !in pre by {
        forall i | 0 <= i < |pre|
          ensures pre[i] != id
        {
          assert pre[i] == ids[i];
        }
      }
    } else {
      WithoutRemovesOne(pre, id);
    }
  }

  /** `toggleAssignment`'s list update: drop `id` when present, append it otherwise. */
  function Toggled(ids: seq<nat>, id: nat): (r: seq<nat>)
    ensures id in r <==> id !in ids
    ensures forall x :: x != id ==> (x in r <==> x in ids)
  {
    if id in ids then Without(ids, id) else ids + [id]
  }

  /** Toggling never introduces a repeat. */
  lemma ToggledKeepsDistinct(ids: seq<nat>, id: nat)
    requires NoDuplicates(ids)
    ensures NoDuplicates(Toggled(ids, id))
  {
    if id in ids {
      WithoutKeepsDistinct(ids, id);
    } else {
      AppendFresh(ids, id);
    }
  }

  /**
   * Toggling twice restores the same sharers and their number; when the id was absent,
   * it restores the list itself.
   */
  lemma ToggleTwice(ids: seq<nat>, id: nat)
    requires NoDuplicates(ids)
    ensures var twice := Toggled(Toggled(ids, id), id);
      && (forall x :: x in twice <==> x in ids)
      && |twice| == |ids|
      && (id !in ids ==> twice == ids)
  {
    if id in ids {
      WithoutRemovesOne(ids, id);
    } else {
      var once := ids + [id];
      assert once[..|once| - 1] == ids;
    }
  }

  /** The items whose id is not `id`, in the same order (script.js:98). */
  function RemoveItem(items: seq<Item>, id: nat): (r: seq<Item>)
    ensures forall it :: it in r <==> it in items && it.id != id
    ensures id !in ItemIds(items) ==> r == items
  {
    if items == [] then []
    else
      var pre, last := items[..|items| - 1], items[|items| - 1];
      assert items == pre + [last];
      RemoveItem(pre, id) + (if last.id != id then [last] else [])
  }

  /** The people whose id is not `id`, in the same order (script.js:119). */
  function RemovePerson(people: seq<Person>, id: nat): (r: seq<Person>)
    ensures forall p :: p in r <==> p in people && p.id != id
    ensures id !in PersonIds(people) ==> r == people
  {
    if people == [] then []
    else
      var pre, last := people[..|people| - 1], people[|people| - 1];
      assert people == pre + [last];
      RemovePerson(pre, id) + (if last.id != id then [last] else [])
  }

  /** The edit of `saveEditItem` (script.js:80-84): the item with that id gets the new name and price. */
  function EditItem(items: seq<Item>, id: nat, name: string, price: real): (r: seq<Item>)
    ensures |r| == |items|
    ensures forall i :: 0 <= i < |items| ==> r[i].id == items[i].id
    ensures forall i :: 0 <= i < |items| && items[i].id != id ==> r[i] == items[i]
    ensures forall i :: 0 <= i < |items| && items[i].id == id ==> r[i].name == name && r[i].price == price
  {
    if items == [] then []
    else
      var last := items[|items| - 1];
      EditItem(items[..|items| - 1], id, name, price)
      + [if last.id == id then last.(name := name, price := price) else last]
  }

  /** The `forEach` of `deletePerson`: every assignment list without `id`. */
  function StripPerson(assignments: map<nat, seq<nat>>, id: nat): (r: map<nat, seq<nat>>)
    ensures r.Keys == assignments.Keys
    ensures forall k :: k in r ==> r[k] == Without(assignments[k], id)
  {
    map k | k in assignments :: Without(assignments[k], id)
  }

  // ---------------------------------------------------------------------------
  // What the updates do to the invariant and to the amounts
  // ---------------------------------------------------------------------------

  lemma {:induction false} RemoveItemKeepsDistinct(items: seq<Item>, id: nat)
    requires DistinctItemIds(items)
    ensures DistinctItemIds(RemoveItem(items, id))
  {
    if items != [] {
      var pre, last := items[..|items| - 1], items[|items| - 1];
      assert DistinctItemIds(pre) by {
        forall i, j | 0 <= i < j < |pre|
          ensures pre[i].id != pre[j].id
        {
          assert pre[i] == items[i] && pre[j] == items[j];
        }
      }
      RemoveItemKeepsDistinct(pre, id);
      var kept := RemoveItem(pre, id);
      if last.id != id {
        var s := kept + [last];
        forall i, j | 0 <= i < j < |s|
          ensures s[i].id != s[j].id
        {
          if j == |kept| {
            assert s[i] in pre;
            var m :| 0 <= m < |pre| && pre[m] == s[i];
            assert items[m] == s[i];
          }
        }
      }
    }
  }

  lemma {:induction false} RemovePersonKeepsDistinct(people: seq<Person>, id: nat)
    requires DistinctPersonIds(people)
    ensures DistinctPersonIds(RemovePerson(people, id))
  {
    if people != [] {
      var pre, last := people[..|people| - 1], people[|people| - 1];
      assert DistinctPersonIds(pre) by {
        forall i, j | 0 <= i < j < |pre|
          ensures pre[i].id != pre[j].id
        {
          assert pre[i] == people[i] && pre[j] == people[j];
        }
      }
      RemovePersonKeepsDistinct(pre, id);
      var kept := RemovePerson(pre, id);
      if last.id != id {
        var s := kept + [last];
        forall i, j | 0 <= i < j < |s|
          ensures s[i].id != s[j].id
        {
          if j == |kept| {
            assert s[i] in pre;
            var m :| 0 <= m < |pre| && pre[m] == s[i];
            assert people[m] == s[i];
          }
        }
      }
    }
  }

  /** The items before the last keep distinct ids, none of them the last item's. */
  lemma ItemPrefixKeepsDistinct(items: seq<Item>)
    requires items != [] && DistinctItemIds(items)
    ensures DistinctItemIds(items[..|items| - 1])
    ensures forall k :: 0 <= k < |items| - 1 ==> items[k].id != items[|items| - 1].id
  {
  }

  /** Deleting the item with a given id takes exactly its price off the subtotal. */
  lemma {:induction false} RemovedItemSubtotal(items: seq<Item>, i: nat)
    requires DistinctItemIds(items) && i < |items|
    ensures Subtotal(RemoveItem(items, items[i].id)) == Subtotal(items) - items[i].price
  {
    var id := items[i].id;
    var pre, last := items[..|items| - 1], items[|items| - 1];
    ItemPrefixKeepsDistinct(items);
    if i == |items| - 1 {
      RemoveAbsent(pre, id);
      assert RemoveItem(items, id) == pre;
    } else {
      assert pre[i] == items[i];
      RemovedItemSubtotal(pre, i);
      assert RemoveItem(items, id) == RemoveItem(pre, id) + [last];
      SubtotalAppend(RemoveItem(pre, id), last);
    }
  }

  /** Deleting an id that no item carries leaves the items as they are. */
  lemma RemoveAbsent(items: seq<Item>, id: nat)
    requires forall k :: 0 <= k < |items| ==> items[k].id != id
    ensures RemoveItem(items, id) == items
  {
    forall it | it in items
      ensures it.id != id
    {
      var m :| 0 <= m < |items| && items[m] == it;
    }
    assert id !in ItemIds(items);
  }

  lemma SubtotalAppend(items: seq<Item>, last: Item)
    ensures Subtotal(items + [last]) == Subtotal(items) + last.price
  {
    assert (items + [last])[..|items|] == items;
  }

  /** Deleting an item and its assignment entry keeps the store invariant. */
  lemma DeleteItemKeepsInvariant(items: seq<Item>, people: seq<Person>, assignments: map<nat, seq<nat>>, id: nat)
    requires StoreInvariant(items, people, assignments)
    ensures StoreInvariant(RemoveItem(items, id), people, assignments - {id})
  {
    RemoveItemKeepsDistinct(items, id);
    var newItems := RemoveItem(items, id);
    forall k | k in assignments - {id}
      ensures k in ItemIds(newItems)
    {
      var it :| it in items && it.id == k;
      assert it in newItems;
    }
  }

  /** Deleting a person and taking their id out of every list keeps the store invariant. */
  lemma DeletePersonKeepsInvariant(items: seq<Item>, people: seq<Person>, assignments: map<nat, seq<nat>>, id: nat)
    requires StoreInvariant(items, people, assignments)
    ensures StoreInvariant(items, RemovePerson(people, id), StripPerson(assignments, id))
  {
    RemovePersonKeepsDistinct(people, id);
    var newPeople := RemovePerson(people, id);
    var stripped := StripPerson(assignments, id);
    forall k | k in stripped
      ensures NoDuplicates(stripped[k])
      ensures forall q :: q in stripped[k] ==> q in PersonIds(newPeople)
    {
      WithoutKeepsDistinct(assignments[k], id);
      forall q | q in stripped[k]
        ensures q in PersonIds(newPeople)
      {
        var p :| p in people && p.id == q;
        assert p in newPeople;
      }
    }
  }

  /** Editing the item with a given id changes the subtotal by exactly the change of its price. */
  lemma {:induction false} EditedItemSubtotal(items: seq<Item>, i: nat, name: string, price: real)
    requires DistinctItemIds(items) && i < |items|
    ensures Subtotal(EditItem(items, items[i].id, name, price)) == Subtotal(items) - items[i].price + price
  {
    var id := items[i].id;
    var pre, last := items[..|items| - 1], items[|items| - 1];
    var edited := EditItem(items, id, name, price);
    assert edited[..|edited| - 1] == EditItem(pre, id, name, price);
    ItemPrefixKeepsDistinct(items);
    if i == |items| - 1 {
      EditAbsent(pre, id, name, price);
    } else {
      assert pre[i] == items[i];
      EditedItemSubtotal(pre, i, name, price);
    }
  }

  /** Editing an id that no item carries leaves the items as they are. */
  lemma EditAbsent(items: seq<Item>, id: nat, name: string, price: real)
    requires forall k :: 0 <= k < |items| ==> items[k].id != id
    ensures EditItem(items, id, name, price) == items
  {
  }

  /** An id in the store is nowhere else: a person who is not on the bill shares no item. */
  lemma AbsentPersonSharesNothing(b: Bill, personId: nat)
    requires StoreInvariant(b.items, b.people, b.assignments)
    requires personId !in PersonIds(b.people)
    ensures forall it :: it in b.items ==> personId !in Assignees(b.assignments, it.id)
  {
  }

  /** What the store keeps true is what the engine's accounting identities assume. */
  lemma InvariantIsConsistent(b: Bill)
    requires StoreInvariant(b.items, b.people, b.assignments)
    ensures Consistent(b)
  {
  }

  /** A person who has just been added, or who has just been deleted, pays nothing. */
  lemma AbsentPersonOwesNothing(b: Bill, personId: nat)
    requires StoreInvariant(b.items, b.people, b.assignments)
    requires personId !in PersonIds(b.people)
    ensures PersonBreakdown(b, personId) == Breakdown(0.0, 0.0, 0.0, 0.0)
  {
    AbsentPersonSharesNothing(b, personId);
    UnassignedPersonOwesNothing(b, personId);
  }

  /** A person's subtotal share depends on each item's sharers only through who they are and how many. */
  lemma {:induction false} SameSharersSameShare(items: seq<Item>, a1: map<nat, seq<nat>>, a2: map<nat, seq<nat>>, personId: nat)
    requires forall it :: it in items ==>
               && |Assignees(a1, it.id)| == |Assignees(a2, it.id)|
               && (personId in Assignees(a1, it.id) <==> personId in Assignees(a2, it.id))
    ensures ShareOf(items, a1, personId) == ShareOf(items, a2, personId)
  {
    if items != [] {
      var pre := items[..|items| - 1];
      assert forall it :: it in pre ==> it in items;
      SameSharersSameShare(pre, a1, a2, personId);
    }
  }

  /** Toggling an assignment twice gives every person the same breakdown as before. */
  lemma ToggleTwiceSameBreakdown(b: Bill, itemId: nat, personId: nat, who: nat)
    requires NoDuplicates(Assignees(b.assignments, itemId))
    ensures var once := b.assignments[itemId := Toggled(Assignees(b.assignments, itemId), personId)];
      var twice := once[itemId := Toggled(Assignees(once, itemId), personId)];
      PersonBreakdown(b.(assignments := twice), who) == PersonBreakdown(b, who)
  {
    var ids := Assignees(b.assignments, itemId);
    var once := b.assignments[itemId := Toggled(ids, personId)];
    var twice := once[itemId := Toggled(Assignees(once, itemId), personId)];
    ToggleTwice(ids, personId);
    assert Assignees(twice, itemId) == Toggled(Toggled(ids, personId), personId);
    SameSharersSameShare(b.items, twice, b.assignments, who);
    SameShareSameBreakdown(b, twice, who);
  }

  /** Everything in a person's breakdown follows from their subtotal share. */
  lemma SameShareSameBreakdown(b: Bill, assignments: map<nat, seq<nat>>, who: nat)
    requires ShareOf(b.items, assignments, who) == ShareOf(b.items, b.assignments, who)
    ensures PersonBreakdown(b.(assignments := assignments), who) == PersonBreakdown(b, who)
  {
    var other := b.(assignments := assignments);
    assert Proportion(other, who) == Proportion(b, who);
    assert Unrounded(other, who) == Unrounded(b, who);
  }

  /** A person just deleted from the store pays nothing. */
  lemma DeletedPersonOwesNothing(b: Bill, personId: nat)
    requires StoreInvariant(b.items, b.people, b.assignments)
    ensures var after := b.(people := RemovePerson(b.people, personId), assignments := StripPerson(b.assignments, personId));
      PersonBreakdown(after, personId) == Breakdown(0.0, 0.0, 0.0, 0.0)
  {
    var after := b.(people := RemovePerson(b.people, personId), assignments := StripPerson(b.assignments, personId));
    forall it | it in after.items
      ensures personId !in Assignees(after.assignments, it.id)
    {
    }
    UnassignedPersonOwesNothing(after, personId);
  }

  /** The loop of `deletePerson` over the assignment keys (script.js:121-123): each entry filtered in turn. */
  method StripEachKey(assignments: map<nat, seq<nat>>, id: nat) returns (stripped: map<nat, seq<nat>>)
    ensures stripped == StripPerson(assignments, id)
  {
    stripped := assignments;
    var keys := assignments.Keys;
    while keys != {}
      invariant keys <= assignments.Keys
      invariant stripped.Keys == assignments.Keys
      invariant forall k :: k in assignments ==>
                  stripped[k] == if k in keys then assignments[k] else Without(assignments[k], id)
      decreases keys
    {
      var k :| k in keys;
      stripped := stripped[k := Without(stripped[k], id)];
      keys := keys - {k};
    }
  }

  // ---------------------------------------------------------------------------
  // The store
  // ---------------------------------------------------------------------------

  /** The state behind the form: `useState` fields the operations replace. */
  class BillStore {
    var items: seq<Item>
    var people: seq<Person>
    var assignments: map<nat, seq<nat>>
    var tax: Tax
    var tipPercent: real
    var rounding: Rounding

    ghost predicate Valid()
      reads this
    {
      StoreInvariant(items, people, assignments)
    }

    /** The bill the engine reads. */
    function Snapshot(): Bill
      reads this
    {
      Bill(items, people, assignments, tax, tipPercent, rounding)
    }

    /** The initial state: empty lists, a blank dollar tax and tip, no rounding. */
    constructor ()
      ensures Valid()
      ensures items == [] && people == [] && assignments == map[]
      ensures tax == Tax(Dollar, 0.0) && tipPercent == 0.0 && rounding == RoundNone
    {
      items, people, assignments := [], [], map[];
      tax, tipPercent, rounding := Tax(Dollar, 0.0), 0.0, RoundNone;
    }

    /** `resetAll`: back to the initial state. */
    method ResetAll()
      modifies this
      ensures Valid()
      ensures items == [] && people == [] && assignments == map[]
      ensures tax == Tax(Dollar, 0.0) && tipPercent == 0.0 && rounding == RoundNone
    {
      items, people, assignments := [], [], map[];
      tax, tipPercent, rounding := Tax(Dollar, 0.0), 0.0, RoundNone;
    }

    /**
     * `addItem`: appends a new item unless the name or the price field is blank.
     * `name` is the trimmed name; `None` is a blank price field.
     */
    method AddItem(id: nat, name: string, price: Option<real>)
      requires Valid()
      requires name != "" && price.Some? ==> id !in ItemIds(items)
      modifies this
      ensures Valid()
      ensures if name != "" && price.Some? then items == old(items) + [Item(id, name, price.value)]
              else items == old(items)
      ensures Subtotal(items) == old(Subtotal(items)) + (if name != "" && price.Some? then price.value else 0.0)
      ensures people == old(people) && assignments == old(assignments)
      ensures tax == old(tax) && tipPercent == old(tipPercent) && rounding == old(rounding)
    {
      if name != "" && price.Some? {
        var newItem := Item(id, name, price.value);
        var newItems := items + [newItem];
        assert newItems[..|newItems| - 1] == items;
        assert ItemIds(newItems) == ItemIds(items) + {id};
        items := newItems;
      }
    }

    /** `saveEditItem`: gives the item with id `editing` the new name and price, unless a field is blank. */
    method SaveEditItem(editing: nat, name: string, price: Option<real>)
      requires Valid()
      modifies this
      ensures Valid()
      ensures if name != "" && price.Some? then items == EditItem(old(items), editing, name, price.value)
              else items == old(items)
      ensures forall i :: 0 <= i < |old(items)| && old(items)[i].id == editing && name != "" && price.Some? ==>
                Subtotal(items) == old(Subtotal(items)) - old(items)[i].price + price.value
      ensures people == old(people) && assignments == old(assignments)
      ensures tax == old(tax) && tipPercent == old(tipPercent) && rounding == old(rounding)
    {
      if name != "" && price.Some? {
        var newItems := EditItem(items, editing, name, price.value);
        forall i | 0 <= i < |items| && items[i].id == editing
          ensures Subtotal(newItems) == Subtotal(items) - items[i].price + price.value
        {
          EditedItemSubtotal(items, i, name, price.value);
        }
        assert ItemIds(newItems) == ItemIds(items) by {
          forall x | x in ItemIds(items)
            ensures x in ItemIds(newItems)
          {
            var it :| it in items && it.id == x;
            var m :| 0 <= m < |items| && items[m] == it;
            assert newItems[m].id == x;
          }
        }
        items := newItems;
      }
    }

    /** `deleteItem`: removes the item and its assignment entry. */
    method DeleteItem(id: nat)
      requires Valid()
      modifies this
      ensures Valid()
      ensures items == RemoveItem(old(items), id)
      ensures assignments == old(assignments) - {id}
      ensures forall i :: 0 <= i < |old(items)| && old(items)[i].id == id ==>
                Subtotal(items) == old(Subtotal(items)) - old(items)[i].price
      ensures people == old(people)
      ensures tax == old(tax) && tipPercent == old(tipPercent) && rounding == old(rounding)
    {
      var newItems := RemoveItem(items, id);
      forall i | 0 <= i < |items| && items[i].id == id
        ensures Subtotal(newItems) == Subtotal(items) - items[i].price
      {
        RemovedItemSubtotal(items, i);
      }
      DeleteItemKeepsInvariant(items, people, assignments, id);
      items, assignments := newItems, assignments - {id};
    }

    /** `addPerson`: appends a new person unless the name is blank; the new person owes nothing. */
    method AddPerson(id: nat, name: string)
      requires Valid()
      requires name != "" ==> id !in PersonIds(people)
      modifies this
      ensures Valid()
      ensures if name != "" then people == old(people) + [Person(id, name)] else people == old(people)
      ensures name != "" ==> PersonBreakdown(Snapshot(), id) == Breakdown(0.0, 0.0, 0.0, 0.0)
      ensures items == old(items) && assignments == old(assignments)
      ensures tax == old(tax) && tipPercent == old(tipPercent) && rounding == old(rounding)
    {
      if name != "" {
        AbsentPersonOwesNothing(Snapshot(), id);
        var newPeople := people + [Person(id, name)];
        assert PersonIds(newPeople) == PersonIds(people) + {id};
        people := newPeople;
      }
    }

    /**
     * `deletePerson`: removes the person, then takes their id out of every assignment
     * list, one entry at a time; afterwards they owe nothing.
     */
    method DeletePerson(id: nat)
      requires Valid()
      modifies this
      ensures Valid()
      ensures people == RemovePerson(old(people), id)
      ensures assignments == StripPerson(old(assignments), id)
      ensures PersonBreakdown(Snapshot(), id) == Breakdown(0.0, 0.0, 0.0, 0.0)
      ensures items == old(items)
      ensures tax == old(tax) && tipPercent == old(tipPercent) && rounding == old(rounding)
    {
      var stripped := StripEachKey(assignments, id);
      DeletePersonKeepsInvariant(items, people, assignments, id);
      DeletedPersonOwesNothing(Snapshot(), id);
      people, assignments := RemovePerson(people, id), stripped;
    }

    /**
     * `toggleAssignment`: adds the person to the item's sharers, or removes them when
     * already there; every other entry stays as it was.
     */
    method ToggleAssignment(itemId: nat, personId: nat)
      requires Valid()
      requires itemId in ItemIds(items) && personId in PersonIds(people)
      modifies this
      ensures Valid()
      ensures assignments == old(assignments)[itemId := Toggled(Assignees(old(assignments), itemId), personId)]
      ensures personId in Assignees(assignments, itemId) <==> personId !in Assignees(old(assignments), itemId)
      ensures items == old(items) && people == old(people)
      ensures tax == old(tax) && tipPercent == old(tipPercent) && rounding == old(rounding)
    {
      var current := Assignees(assignments, itemId);
      ToggledKeepsDistinct(current, personId);
      if personId in current {
        assignments := assignments[itemId := Without(current, personId)];
      } else {
        assignments := assignments[itemId := current + [personId]];
      }
    }
  }
}
